=== FILE: README.md ===
# Grid shortest paths (pathfinder.py), modelled in Dafny

pathfinder.py draws a grid of cells. The user marks a source, a target and
some walls, and the program finds a shortest path between source and target
with Dijkstra's algorithm. The model covers the engine behind this:

- `nodes.dfy` (module `Nodes`): a cell (`Node`) is a position `(x, y)`. The
  program compares cells by the name `"x,y"`. The lemmas show that the name
  determines the position, so name equality is position equality.
- `grid.dfy` (module `Grid`): `Game.get_neighbors` is the function
  `Neighbors`, with the grid size as parameters. `Game.generate_nodes` is the
  nested-loop method `GenerateNodes`. Its key order is the x-major list
  `Cells`, and its table maps each cell to its neighbours.
- `graph.dfy` (module `Pathfinding`): `class Graph` holds the node table and
  the wall list.
  - The node table is a Python dict, which keeps insertion order. It is
    modelled as `keys` (that order) plus `nodes` (the map).
  - Distances are `Fin(steps)` or `Inf`. `Inf < Inf` is false and
    `Inf == Inf` is true, as with `float('inf')`.
  - `FindShortestPath` follows the program's steps: initialise the tables,
    select the first unvisited node of least distance, move it to `visited`,
    relax its edges, and repeat until the target is visited. `TraceBack`
    then reads the path back through the predecessor table.
  - The search is proved correct against the invariant `SearchInvariant`.
    The result is a walk that never enters a wall. When the target is
    reachable, the path starts at the source and no walk is shorter.
  - `visited` is the order in which nodes were settled. A final distance
    table, returned as a ghost value, shows that this order never goes
    down in distance and that each visited distance is a least walk length.
    Ties are broken by key order, because the selection takes the first
    node of least distance in `unvisited`, which stays in key order.
- `gridpaths.dfy` (module `GridPaths`): the search on the grid.
  - With no walls, the path has exactly Manhattan distance + 1 cells.
  - A target that is a wall cannot be reached from another cell. Neither can
    a target whose neighbours are all walls other than the source. In both
    cases the search returns the target alone.
  - `RunSearch` repeats what `Game.run` does with the graph: build it, add
    the walls, search.

Some behaviours of the code are easy to miss:

- When the target cannot be reached, the path is `[target]`: the target
  has no predecessor, so tracing back stops at once.
- The main loop does not stop when only cells at infinity are left. Because
  `inf == inf`, the selection still picks the first of them. So the loop
  always ends, after at most one iteration per cell, once the target has
  been picked.
- The source may be a wall. A path may start on a wall but never enters
  one. When the source is a wall next to the target, the target is reached
  even though all its neighbours are walls.

## Model

| member | source | states |
|---|---|---|
| Nodes.Decimal | pathfinder.py:95-97 | `str(n)` of a natural number is a non-empty string of decimal digits, one digit exactly when n < 10 |
| Nodes.Name | pathfinder.py:95-97 | no contract of its own: the name `str(x) + "," + str(y)`; what it means is stated by `Nodes.NameInjective` |
| Nodes.DecimalInjective | pathfinder.py:95-97 | different numbers have different decimal numerals (`str(x)`) |
| Nodes.NameInjective | pathfinder.py:95-97 | two nodes have the same name `"x,y"` exactly when their positions are equal |
| Nodes.Equal | pathfinder.py:86-90 | `__eq__` compares names; it holds exactly when both coordinates are equal |
| Grid.Neighbors | pathfinder.py:303-336 | no contract of its own: `get_neighbors` with the grid size as parameters; it is specified by `Grid.NeighborsInStepOrder`, `Grid.NeighborsAdjacent` and the lemmas after them |
| Grid.NeighborsInStepOrder | pathfinder.py:303-336 | the neighbours of a grid cell are exactly the in-grid cells among left, right, up, down, in that order |
| Grid.NeighborsAdjacent | pathfinder.py:303-336 | a cell is listed as a neighbour iff it is in the grid at Manhattan distance 1; no neighbour is listed twice |
| Grid.NeighborCount | pathfinder.py:318-336 | on a grid at least 2 by 2, a corner has 2 neighbours, an edge cell 3 and an inner cell 4 |
| Grid.NeighborsSymmetric | pathfinder.py:303-336 | b is a neighbour of a iff a is a neighbour of b |
| Grid.NeighborsInGrid | pathfinder.py:303-336 | every listed neighbour is a cell of the grid, hence a key of the table |
| Grid.Cells | pathfinder.py:294-299 | the x-major cell list has width*height entries, holds exactly the grid cells and is strictly increasing in (x, y) order |
| Grid.CellsDistinct | pathfinder.py:294-299 | no cell is enumerated twice |
| Grid.GenerateNodes | pathfinder.py:281-301 | the keys, in insertion order, are the x-major cell list; the table maps exactly the grid cells, each to its neighbours |
| Pathfinding.Add | pathfinder.py:194-197 | no contract of its own: `+` on distances, infinite when either side is `float('inf')` |
| Pathfinding.Lt | pathfinder.py:174-199 | no contract of its own: `<` on distances; every number is below infinity and `inf < inf` is false, which the selection and the relaxation test rely on |
| Pathfinding.Le | pathfinder.py:174-178 | no contract of its own: not above, as the least distance found by the first scan is not above any unvisited one |
| Pathfinding.SelectMin | pathfinder.py:174-185 | the index chosen is that of an unvisited node of least distance, and every earlier node has a strictly larger distance (first on ties, infinity included) |
| Pathfinding.MoveToVisited | pathfinder.py:180-185 | moving the selected node from unvisited to visited keeps both lists repetition-free and disjoint, keeps their union, and keeps the total length |
| Pathfinding.RemoveAt | pathfinder.py:183 | `unvisited.remove(curr)` on a repetition-free list removes exactly that node |
| Pathfinding.Graph.constructor | pathfinder.py:116-119 | the graph holds the given node table and walls |
| Pathfinding.Graph.AddWall | pathfinder.py:121-123 | the wall is appended; the wall set gains exactly that node (adding it again changes no membership); the node table is untouched |
| Pathfinding.Graph.Candidate | pathfinder.py:194-197 | no contract of its own: the candidate distance `alt` through curr, infinite when the neighbour is a wall and dist[curr] + 1 otherwise; `Pathfinding.Graph.Relaxed` states its effect |
| Pathfinding.Graph.Improves | pathfinder.py:194-199 | no contract of its own: the test `alt < dist[n]` for a neighbour n of curr; `Pathfinding.Graph.RelaxedPrev` states that exactly these neighbours get curr as predecessor |
| Pathfinding.Graph.Relaxed | pathfinder.py:190-201 | after relaxing curr's edges no distance grows, only neighbours of curr change, walls never change, and a changed distance is a strict drop to dist[curr] + 1; every non-wall neighbour of curr ends at most dist[curr] + 1 |
| Pathfinding.Graph.RelaxedPrev | pathfinder.py:190-201 | a predecessor changes only to curr and only on a strict improvement, and every strict improvement sets it |
| Pathfinding.Graph.Relax | pathfinder.py:190-201 | the relaxation loop computes exactly Relaxed and RelaxedPrev |
| Pathfinding.Graph.InitialTables | pathfinder.py:162-169 | unvisited is every key in key order; every node is at infinity without predecessor, except the source at 0 |
| Pathfinding.Graph.InitialState | pathfinder.py:162-172 | the initial tables satisfy the search invariant |
| Pathfinding.Graph.StepBookkeeping | pathfinder.py:173-201 | one iteration keeps visited and unvisited a repetition-free partition of the nodes, keeps the source at 0, and keeps the target last in visited once it is visited |
| Pathfinding.Graph.SettledUnchanged | pathfinder.py:190-201 | relaxing the least node changes neither its own distance nor any visited distance |
| Pathfinding.Graph.StepOrder | pathfinder.py:173-201 | after one iteration no visited distance exceeds an unvisited one |
| Pathfinding.Graph.StepEdges | pathfinder.py:190-201 | after one iteration every edge from a visited node into a non-wall is relaxed |
| Pathfinding.Graph.StepLinks | pathfinder.py:190-201 | after one iteration every predecessor is visited and adjacent, and its node is one step farther; nodes without predecessor (other than the source) stay at infinity |
| Pathfinding.Graph.SearchStep | pathfinder.py:173-201 | one iteration of the main loop keeps the search invariant |
| Pathfinding.Graph.Search | pathfinder.py:162-201 | the loop ends with the target visited, the invariant holding, and the visited nodes in the order they were settled, none at a greater distance than a later one; unvisited stays in key order, and nodes at equal distance are visited in key order, before any unvisited node at that distance |
| Pathfinding.Graph.StepSettleOrder | pathfinder.py:173-201 | appending the least unvisited node to visited and relaxing its edges keeps the visited nodes ordered by distance |
| Pathfinding.Graph.InitialTieOrder | pathfinder.py:163-166 | unvisited starts as the keys in key order, so the tie order holds at the start |
| Pathfinding.Graph.RemoveKeepsKeyOrder | pathfinder.py:183 | removing the selected node from unvisited keeps it in key order |
| Pathfinding.Graph.StepTiesUnvisited | pathfinder.py:174-201 | after an iteration, a visited node comes before every unvisited node at its distance in key order: the selection picks the first on ties, and relaxing only sets distances above the selected one |
| Pathfinding.Graph.StepTiesVisited | pathfinder.py:180-185 | after an iteration, visited nodes at equal distance are still in key order |
| Pathfinding.Graph.StepTieOrder | pathfinder.py:173-201 | one iteration of the main loop keeps the tie order |
| Pathfinding.Graph.VisitOrder | pathfinder.py:173-185 | at the end, visited nodes at equal distance are in key order, and every node left unvisited is farther than the target, or as far and after it in key order |
| Pathfinding.Graph.LinksDescend | pathfinder.py:199-201 | every predecessor link leads to a strictly nearer node, so the links have no cycle |
| Pathfinding.Graph.WalkBound | pathfinder.py:173-201 | the distance of a visited node is at most the length of any wall-free walk to it from the source |
| Pathfinding.Graph.ChainDistance | pathfinder.py:208-228 | along a predecessor chain of two or more nodes, the chain starts at the source and its k-th node is at distance k |
| Pathfinding.Graph.DistanceWalk | pathfinder.py:190-201 | a node at a finite distance is the end of a wall-free walk from the source with exactly that many steps |
| Pathfinding.Graph.NearerVisited | pathfinder.py:173-185 | once the target is visited, a node that a walk from the source reaches in fewer steps than the target's distance is visited |
| Pathfinding.Graph.VisitedBound | pathfinder.py:173-201 | the distance of every visited node is at most the length of any wall-free walk to it |
| Pathfinding.Graph.FiniteDistances | pathfinder.py:190-201 | every finite distance is the length of a wall-free walk from the source |
| Pathfinding.Graph.NearerAllVisited | pathfinder.py:173-185 | once the target is visited, every node nearer to the source than the target is visited |
| Pathfinding.Graph.SearchDistances | pathfinder.py:146-201 | at the end of the search, visited distances are least walk lengths and never decrease along visited; nodes nearer than the target are visited; all reachable nodes are visited when the target is unreachable |
| Pathfinding.Graph.SearchResult | pathfinder.py:125-206 | the traced path is a wall-free walk ending at the target; if reachable it starts at the source and is a least walk, otherwise it is [target] |
| Pathfinding.Reversed | pathfinder.py:226 | the list after `path.reverse()` has the same length, and its k-th element is the k-th from the end; the recursive definition is checked against this index formula |
| Pathfinding.Graph.TraceBack | pathfinder.py:208-228 | the result is the predecessor chain of the target, in source-to-target order, starting at a node without predecessor |
| Pathfinding.Graph.FindShortestPath | pathfinder.py:125-206 | visited lists distinct nodes, starts at the source and ends at the target; path is a wall-free walk ending at the target, a least walk from the source if the target is reachable, otherwise [target]; the ghost final distance table puts every visited node at the length of a least walk to it (infinity if none); nodes are visited in order of distance; every node nearer than the target is visited, and every reachable node is visited when the target is unreachable; nodes at equal distance are visited in key order; every node not visited is farther than the target, or as far and after it in key order (so an unreachable target comes after every reachable node and every unreachable key before it) |
| GridPaths.WalkLowerBound | pathfinder.py:303-336 | every walk through the grid takes at least Manhattan-distance steps |
| GridPaths.Staircase | pathfinder.py:303-336 | the staircase from s to t has Manhattan(s, t) + 1 cells, from s to t |
| GridPaths.StaircaseIsWalk | pathfinder.py:303-336 | without walls, the staircase between two grid cells is a walk |
| GridPaths.OpenGridReachable | pathfinder.py:303-336 | without walls, every grid cell reaches every other |
| GridPaths.OpenGridDistance | pathfinder.py:125-206 | without walls, a least walk has exactly Manhattan distance + 1 cells |
| GridPaths.LastStep | pathfinder.py:192-201 | the last step of a walk between different cells enters the target, which is not a wall, from the source or a non-wall |
| GridPaths.WallTargetUnreachable | pathfinder.py:192-201 | a wall cannot be reached from another cell |
| GridPaths.EscapeRoute | pathfinder.py:192-201 | a target reached from elsewhere has a grid neighbour that is the source or not a wall |
| GridPaths.EnclosedTargetUnreachable | pathfinder.py:192-201 | a target whose grid neighbours are all walls other than the source cannot be reached from another cell |
| GridPaths.WalkIsGridWalk | pathfinder.py:303-336 | over the grid's table, the walks of the graph are exactly the grid walks: in-grid cells, one cell per step, no step into a wall |
| GridPaths.GridSearchResult | pathfinder.py:125-206 | on the grid the path is a grid walk to the target; if any grid walk leads from source to target, the path starts at the source and is no longer than it, otherwise it is [target]; without walls it has Manhattan distance + 1 cells; a wall or walled-in target gives [target] |
| GridPaths.GridSearchDistances | pathfinder.py:146-201 | the distance and visiting facts of the search, restated for grid walks: a visited cell's distance is at most any grid walk's length; a finite distance is a grid walk's length; nearer cells are visited; with the target unreachable, every reachable cell is visited |
| GridPaths.CellsKeyBefore | pathfinder.py:294-299 | with the generated cells as keys, key order is the x-major order: x first, then y |
| GridPaths.GridVisitOrder | pathfinder.py:173-185 | on the grid, cells at equal distance are visited in x-major order, and every cell not visited is farther than the target, or as far and after it in x-major order |
| GridPaths.BuildGraph | pathfinder.py:246-272 | the graph of Game.run has the grid's node table, is well formed and holds exactly the walls added |
| GridPaths.RunSearch | pathfinder.py:246-276 | the search on the grid visits distinct grid cells, at most width*height, source first and target last, in order of distance, where a visited cell's distance is the length of a least grid walk to it; every cell nearer than the target is visited, and every cell a grid walk reaches is visited when the target is unreachable; cells at equal distance are visited in x-major order, and every cell not visited is farther than the target, or as far and after it in x-major order; the path is a grid walk to the target; if any grid walk leads from source to target, the path starts at the source and is no longer than any of them, otherwise it is [target]; it has Manhattan distance + 1 cells without walls, and is [target] for a wall or walled-in target |

## Left out

- The window and the display are not modelled: pygame setup, `draw_screen`, the `visualize` branch of the search, the event loop of `Game.run` and the module-level `Game()` call. `RunSearch` keeps only the part of `Game.run` that builds the graph, adds walls and runs the search.
- The screen size is read from pygame and divided by `NODE_SIZE`. The model takes the grid width and height in cells as parameters instead.
- The string returned by `__str__` and the numeric value of `hash` are not modelled. The model proves that equal names mean equal positions; Python hashes equal strings alike.
- `Nodes.Equal`: only node-to-node comparison is modelled; comparing a node with another kind of value (such as `None`) is not.
- `float('inf')` is replaced by `Dist.Inf`, which keeps the order and addition facts the code relies on.
- The shared mutable default arguments of `Graph.__init__` are not modelled: each graph gets its own table and wall list.
- `Pathfinding.Graph.FindShortestPath`: requires the source to be a key of the table. With any other source the program sets `dist[source] = 0` on a cell that is never selected, visits cells in key order until it reaches the target, and returns `[target]`.
- `Pathfinding.Graph.FindShortestPath`: requires the target to be a key. Otherwise the main loop does not run and `trace_back` stops with a `KeyError`.
- `Pathfinding.Graph.FindShortestPath`: requires every listed neighbour to be a key. The program reads `dist[neighbor]` only for the neighbours of a node it selects. A neighbour that is not a key raises a `KeyError` only if its node is selected no later than the target; the target's own edges are relaxed too, in the last iteration. Otherwise the search returns normally; the model does not cover such tables.
- `Pathfinding.Graph.TraceBack`: takes the distance table as an extra ghost argument. It witnesses that the predecessor links end; the program relies on this without checking it.
- A target that is still `None` (before the user has clicked) makes `trace_back` fail with a `KeyError`; the model always has a target cell. A source that is still `None` behaves like any source that is not a key (see above): the search returns `[target]`. The model always has a source cell.

=== FILE: graph.dfy ===
/** The graph of cells and walls, and the shortest-path search over it
    (class Graph of pathfinder.py).

    Distances are step counts or infinity. Stepping into a wall costs
    infinity, any other step costs one, so a finite distance is the length of
    a walk that never enters a wall. The search is Dijkstra's algorithm: it
    repeatedly settles the unvisited node of least distance (the first one in
    key order on a tie) and relaxes the edges out of it, until the target is
    settled; the path is then read back through the predecessor table. */
module Pathfinding {
  import opened Nodes

  datatype Option<T> = None | Some(value: T)

  /** A search distance: a number of steps, or infinity (float('inf')). */
  datatype Dist = Fin(steps: nat) | Inf

  /** Addition of distances; anything plus infinity is infinity. */
  function Add(a: Dist, b: Dist): Dist
  {
    if a.Fin? && b.Fin? then Fin(a.steps + b.steps) else Inf
  }

  /** The strict order of distances: every number is below infinity, and
      infinity is not below infinity. */
  predicate Lt(a: Dist, b: Dist)
  {
    a.Fin? && (b.Inf? || a.steps < b.steps)
  }

  /** a is not above b. */
  predicate Le(a: Dist, b: Dist)
  {
    b.Inf? || (a.Fin? && a.steps <= b.steps)
  }

  /** No node occurs twice. */
  predicate Distinct(s: seq<Node>)
  {
    forall i, j :: 0 <= i < j < |s| ==> s[i] != s[j]
  }

  /** The position of the first occurrence of n in s. */
  function IndexOf(s: seq<Node>, n: Node): (i: nat)
    requires n in s
    ensures i < |s| && s[i] == n && n !in s[..i]
  {
    if s[0] == n then 0
    else
      var k := IndexOf(s[1..], n);
      assert s[..k + 1] == [s[0]] + s[1..][..k];
      k + 1
  }

  /** w is a walk from s to t through the graph `nodes` that never steps into
      a wall (it may start on one). */
  ghost predicate IsWalk(nodes: map<Node, seq<Node>>, walls: seq<Node>, w: seq<Node>, s: Node, t: Node)
  {
    && |w| > 0 && w[0] == s && w[|w| - 1] == t
    && (forall i :: 0 <= i < |w| ==> w[i] in nodes)
    && (forall i :: 1 <= i < |w| ==> w[i] in nodes[w[i - 1]] && w[i] !in walls)
  }

  /** Some walk leads from s to t without entering a wall. */
  ghost predicate Reachable(nodes: map<Node, seq<Node>>, walls: seq<Node>, s: Node, t: Node)
  {
    exists w :: IsWalk(nodes, walls, w, s, t)
  }

  /** Every predecessor link leads to a node of strictly smaller finite
      distance, so following the links always ends. */
  ghost predicate PrevDescends(prev: map<Node, Option<Node>>, dist: map<Node, Dist>)
  {
    forall n :: n in prev && prev[n].Some? ==>
      && prev[n].value in prev && n in dist && prev[n].value in dist
      && dist[n].Fin? && dist[prev[n].value].Fin?
      && dist[prev[n].value].steps < dist[n].steps
  }

  /** The selection step of the search: the index of the first unvisited node
      whose distance is the least. One pass finds the least distance, a second
      finds the first node that has it. */
  method SelectMin(unvisited: seq<Node>, dist: map<Node, Dist>) returns (i: nat)
    requires |unvisited| > 0
    requires forall n :: n in unvisited ==> n in dist
    ensures i < |unvisited|
    ensures forall j :: 0 <= j < |unvisited| ==> Le(dist[unvisited[i]], dist[unvisited[j]])
    ensures forall j :: 0 <= j < i ==> Lt(dist[unvisited[i]], dist[unvisited[j]])
  {
    var least := Inf;
    for k := 0 to |unvisited|
      invariant forall j :: 0 <= j < k ==> Le(least, dist[unvisited[j]])
      invariant least == Inf || exists j :: 0 <= j < k && dist[unvisited[j]] == least
    {
      if Lt(dist[unvisited[k]], least) {
        least := dist[unvisited[k]];
      }
    }
    assert least == Inf ==> dist[unvisited[0]] == least;
    i := 0;
    while dist[unvisited[i]] != least
      invariant i < |unvisited|
      invariant exists j :: i <= j < |unvisited| && dist[unvisited[j]] == least
      invariant forall j :: 0 <= j < i ==> dist[unvisited[j]] != least
      decreases |unvisited| - i
    {
      i := i + 1;
    }
  }

  /** path is the chain of predecessor links that ends at target: it starts
      at a node without a predecessor, and each node's predecessor is the
      node before it. */
  ghost predicate PrevChain(prev: map<Node, Option<Node>>, path: seq<Node>, target: Node)
  {
    && |path| > 0 && path[|path| - 1] == target
    && (forall k :: 0 <= k < |path| ==> path[k] in prev)
    && prev[path[0]] == None
    && (forall k :: 1 <= k < |path| ==> prev[path[k]] == Some(path[k - 1]))
  }

  /** The list in reverse order: its last element first, then the rest
      reversed (the program reverses the list in place with list.reverse). */
  function Reversed(s: seq<Node>): (r: seq<Node>)
    ensures |r| == |s|
    ensures forall k :: 0 <= k < |s| ==> r[k] == s[|s| - 1 - k]
  {
    if s == [] then [] else [s[|s| - 1]] + Reversed(s[..|s| - 1])
  }

  /** Moving the node at index i of unvisited to the end of visited keeps
      both lists free of repetitions and disjoint, and keeps their union. */
  lemma MoveToVisited(visited: seq<Node>, unvisited: seq<Node>, i: nat)
    requires Distinct(visited) && Distinct(unvisited) && i < |unvisited|
    requires forall n :: n in visited ==> n !in unvisited
    ensures Distinct(visited + [unvisited[i]]) && Distinct(unvisited[..i] + unvisited[i + 1..])
    ensures forall n :: n in visited + [unvisited[i]] ==> n !in unvisited[..i] + unvisited[i + 1..]
    ensures forall n :: n in visited + [unvisited[i]] || n in unvisited[..i] + unvisited[i + 1..] <==>
                        n in visited || n in unvisited
    ensures |visited + [unvisited[i]]| + |unvisited[..i] + unvisited[i + 1..]| == |visited| + |unvisited|
  {
    var visited' := visited + [unvisited[i]];
    RemoveAt(unvisited, i);
    forall a, b | 0 <= a < b < |visited'| ensures visited'[a] != visited'[b] {
      if b == |visited| { assert visited[a] in visited; }
    }
  }

  /** Removing the node at index i of a list without repetitions removes
      exactly that node. */
  lemma RemoveAt(s: seq<Node>, i: nat)
    requires Distinct(s) && i < |s|
    ensures Distinct(s[..i] + s[i + 1..])
    ensures forall n :: n in s[..i] + s[i + 1..] <==> n in s && n != s[i]
  {
  }

  class Graph {
    /** The keys of the node table, in insertion order (a Python dict). */
    var keys: seq<Node>
    /** The node table: each node and its list of neighbours. */
    var nodes: map<Node, seq<Node>>
    /** The wall list, in the order the walls were added. */
    var walls: seq<Node>

    /** The key order lists each key of the table exactly once. */
    ghost predicate Valid()
      reads this
    {
      Distinct(keys) && forall n :: n in nodes <==> n in keys
    }

    /** Every neighbour listed in the table is itself a key. */
    ghost predicate Closed()
      reads this
    {
      forall n, m :: n in nodes && m in nodes[n] ==> m in nodes
    }

    /** A graph over the given node table and walls; each graph owns its own
        table and wall list. */
    constructor (keys: seq<Node>, nodes: map<Node, seq<Node>>, walls: seq<Node>)
      requires Distinct(keys) && forall n :: n in nodes <==> n in keys
      ensures Valid()
      ensures this.keys == keys && this.nodes == nodes && this.walls == walls
    {
      this.keys := keys;
      this.nodes := nodes;
      this.walls := walls;
    }

    /** add_wall: append a node to the wall list. Adding a node again leaves
        the set of walls as it was; the node table is not touched. */
    method AddWall(wall: Node)
      modifies this`walls
      ensures walls == old(walls) + [wall]
      ensures forall n :: n in walls <==> n in old(walls) || n == wall
      ensures keys == old(keys) && nodes == old(nodes)
    {
      walls := walls + [wall];
    }

    /** The distance to n through curr: infinity into a wall, one step more
        than curr otherwise (the `alt` of the relaxation loop). */
    function Candidate(curr: Node, n: Node, dist: map<Node, Dist>): Dist
      reads this
      requires curr in dist
    {
      if n in walls then Add(Inf, dist[curr]) else Add(Fin(1), dist[curr])
    }

    /** Relaxing the edge from curr to n lowers the distance of n. */
    predicate Improves(curr: Node, n: Node, dist: map<Node, Dist>)
      reads this
      requires curr in nodes && curr in dist && n in dist
    {
      n in nodes[curr] && Lt(Candidate(curr, n, dist), dist[n])
    }

    /** The distance table after relaxing every edge out of curr. Distances
        only go down; only neighbours of curr change; a wall never changes,
        so it never gains a finite distance; a changed distance is one step
        more than the distance of curr. */
    function Relaxed(curr: Node, dist: map<Node, Dist>): (r: map<Node, Dist>)
      reads this
      requires curr in nodes && curr in dist
      ensures forall n :: n in r <==> n in dist
      ensures forall n :: n in r ==> Le(r[n], dist[n])
      ensures forall n :: n in r && n in walls ==> r[n] == dist[n]
      ensures forall n :: n in r && n !in nodes[curr] ==> r[n] == dist[n]
      ensures forall n :: n in r && n in nodes[curr] && n !in walls ==> Le(r[n], Add(dist[curr], Fin(1)))
      ensures forall n :: n in r && r[n] != dist[n] ==>
                Lt(r[n], dist[n]) && dist[curr].Fin? && r[n] == Fin(dist[curr].steps + 1)
    {
      map n | n in dist :: if Improves(curr, n, dist) then Candidate(curr, n, dist) else dist[n]
    }

    /** The predecessor table after relaxing every edge out of curr: a node
        gets curr as predecessor exactly when its distance strictly improved. */
    function RelaxedPrev(curr: Node, dist: map<Node, Dist>, prev: map<Node, Option<Node>>): (r: map<Node, Option<Node>>)
      reads this
      requires curr in nodes && curr in dist
      requires forall n :: n in prev ==> n in dist
      ensures forall n :: n in r <==> n in prev
      ensures forall n :: n in r && r[n] != prev[n] ==>
                r[n] == Some(curr) && Lt(Relaxed(curr, dist)[n], dist[n])
      ensures forall n :: n in r && Lt(Relaxed(curr, dist)[n], dist[n]) ==> r[n] == Some(curr)
    {
      map n | n in prev :: if Improves(curr, n, dist) then Some(curr) else prev[n]
    }

    /** The relaxation loop of find_shortest_path: for each neighbour of
        curr, if the distance through curr is smaller, take it and record curr
        as the predecessor. */
    method Relax(curr: Node, dist: map<Node, Dist>, prev: map<Node, Option<Node>>)
      returns (dist': map<Node, Dist>, prev': map<Node, Option<Node>>)
      requires curr in nodes && curr in dist
      requires forall n :: n in prev ==> n in dist
      requires forall m :: m in nodes[curr] ==> m in dist && m in prev
      ensures dist' == Relaxed(curr, dist)
      ensures prev' == RelaxedPrev(curr, dist, prev)
    {
      dist', prev' := dist, prev;
      var neighbors := nodes[curr];
      for k := 0 to |neighbors|
        invariant forall n :: (n in dist' <==> n in dist) && (n in prev' <==> n in prev)
        invariant forall n :: n in dist' ==>
                    dist'[n] == if n in neighbors[..k] && Lt(Candidate(curr, n, dist), dist[n])
                                then Candidate(curr, n, dist) else dist[n]
        invariant forall n :: n in prev' ==>
                    prev'[n] == if n in neighbors[..k] && Lt(Candidate(curr, n, dist), dist[n])
                                then Some(curr) else prev[n]
      {
        var neighbor := neighbors[k];
        assert neighbors[..k + 1] == neighbors[..k] + [neighbor];
        assert dist'[curr] == dist[curr];
        var alt := if neighbor in walls then Add(Inf, dist'[curr]) else Add(Fin(1), dist'[curr]);
        assert alt == Candidate(curr, neighbor, dist);
        if Lt(alt, dist'[neighbor]) {
          dist' := dist'[neighbor := alt];
          prev' := prev'[neighbor := Some(curr)];
        }
      }
      assert neighbors[..|neighbors|] == neighbors;
    }

    /** The bookkeeping of the search: visited and unvisited split the nodes
        between them, each node once, and the distance and predecessor tables
        cover exactly the nodes, with the source at distance 0 and no
        predecessor. */
    ghost predicate Bookkeeping(source: Node, target: Node, visited: seq<Node>, unvisited: seq<Node>,
                                dist: map<Node, Dist>, prev: map<Node, Option<Node>>)
      reads this
    {
      && Valid() && Closed()
      && source in nodes && target in nodes
      && Distinct(visited) && Distinct(unvisited)
      && (forall n :: n in visited ==> n !in unvisited)
      && (forall n :: n in nodes <==> n in visited || n in unvisited)
      && |visited| + |unvisited| == |keys|
      && (forall n :: n in dist <==> n in nodes)
      && (forall n :: n in prev <==> n in nodes)
      && dist[source] == Fin(0) && prev[source] == None
      && (|visited| > 0 ==> visited[0] == source)
      && (target in unvisited || (|visited| > 0 && visited[|visited| - 1] == target))
    }

    /** The distances of visited nodes are settled: none is above the
        distance of an unvisited node, and every edge out of a visited node
        into a non-wall has been relaxed. */
    ghost predicate Settled(source: Node, target: Node, visited: seq<Node>, unvisited: seq<Node>,
                            dist: map<Node, Dist>, prev: map<Node, Option<Node>>)
      reads this
      requires Bookkeeping(source, target, visited, unvisited, dist, prev)
    {
      && (forall u, v :: u in visited && v in unvisited ==> Le(dist[u], dist[v]))
      && (forall u, v :: u in visited && v in nodes[u] && v !in walls ==> Le(dist[v], Add(dist[u], Fin(1))))
    }

    /** Predecessor p of n is visited, n is a non-wall neighbour of p, and the
        distance of n is one more than the finite distance of p. */
    ghost predicate Linked(n: Node, p: Node, visited: seq<Node>, dist: map<Node, Dist>)
      reads this
    {
      && p in visited && p in nodes && n in nodes[p] && n !in walls
      && n in dist && p in dist && dist[p].Fin? && dist[n] == Fin(dist[p].steps + 1)
    }

    /** Every predecessor link is Linked, and every node other than the
        source without a predecessor is at infinity. */
    ghost predicate Links(source: Node, visited: seq<Node>, dist: map<Node, Dist>, prev: map<Node, Option<Node>>)
      reads this
    {
      && (forall n :: n in prev && prev[n].Some? ==> Linked(n, prev[n].value, visited, dist))
      && (forall n :: n in prev && prev[n].None? && n != source ==> n in dist && dist[n] == Inf)
    }

    /** The invariant of the main loop of find_shortest_path. */
    ghost predicate SearchInvariant(source: Node, target: Node, visited: seq<Node>, unvisited: seq<Node>,
                                    dist: map<Node, Dist>, prev: map<Node, Option<Node>>)
      reads this
    {
      && Bookkeeping(source, target, visited, unvisited, dist, prev)
      && Settled(source, target, visited, unvisited, dist, prev)
      && Links(source, visited, dist, prev)
    }

    /** The visited nodes were settled in order of distance: none is above a
        node visited after it. */
    ghost predicate SettleOrder(visited: seq<Node>, dist: map<Node, Dist>)
    {
      forall i, j :: 0 <= i < j < |visited| ==>
        visited[i] in dist && visited[j] in dist && Le(dist[visited[i]], dist[visited[j]])
    }

    /** a comes before b in the key order of the table. */
    ghost predicate KeyBefore(a: Node, b: Node)
      reads this
    {
      a in keys && b in keys && IndexOf(keys, a) < IndexOf(keys, b)
    }

    /** The list is in key order. */
    ghost predicate KeyOrdered(s: seq<Node>)
      reads this
    {
      forall i, j :: 0 <= i < j < |s| ==> KeyBefore(s[i], s[j])
    }

    /** Of two visited nodes at equal distance, the one visited first comes
        first in key order. */
    ghost predicate VisitedTies(visited: seq<Node>, dist: map<Node, Dist>)
      reads this
    {
      forall i, j ::
        (0 <= i < j < |visited| && visited[i] in dist && visited[j] in dist && dist[visited[i]] == dist[visited[j]]) ==>
          KeyBefore(visited[i], visited[j])
    }

    /** Of a visited and an unvisited node at equal distance, the visited one
        comes first in key order. */
    ghost predicate CrossTies(visited: seq<Node>, unvisited: seq<Node>, dist: map<Node, Dist>)
      reads this
    {
      forall u, v :: u in visited && v in unvisited && u in dist && v in dist && dist[u] == dist[v] ==>
        KeyBefore(u, v)
    }

    /** How the search breaks ties: unvisited stays in key order, and of two
        nodes at equal distance, the one visited first, or the visited one,
        comes first in key order. */
    ghost predicate TieOrder(visited: seq<Node>, unvisited: seq<Node>, dist: map<Node, Dist>)
      reads this
    {
      && (forall n :: n in visited || n in unvisited ==> n in keys && n in dist)
      && KeyOrdered(unvisited)
      && VisitedTies(visited, dist)
      && CrossTies(visited, unvisited, dist)
    }

    /** The state after initialisation satisfies the loop invariant. */
    lemma InitialState(source: Node, target: Node, dist: map<Node, Dist>, prev: map<Node, Option<Node>>)
      requires Valid() && Closed() && source in nodes && target in nodes
      requires forall n :: n in dist <==> n in nodes
      requires forall n :: n in prev <==> n in nodes
      requires forall n :: n in dist ==> dist[n] == (if n == source then Fin(0) else Inf)
      requires forall n :: n in prev ==> prev[n] == None
      ensures SearchInvariant(source, target, [], keys, dist, prev)
    {
    }

    /** One iteration of the main loop (select the least unvisited node,
        move it to visited, relax its edges) keeps the bookkeeping. */
    lemma StepBookkeeping(source: Node, target: Node, visited: seq<Node>, unvisited: seq<Node>,
                          dist: map<Node, Dist>, prev: map<Node, Option<Node>>, i: nat)
      requires SearchInvariant(source, target, visited, unvisited, dist, prev)
      requires target in unvisited && i < |unvisited|
      requires forall j :: 0 <= j < |unvisited| ==> Le(dist[unvisited[i]], dist[unvisited[j]])
      ensures Bookkeeping(source, target, visited + [unvisited[i]], unvisited[..i] + unvisited[i + 1..],
                          Relaxed(unvisited[i], dist), RelaxedPrev(unvisited[i], dist, prev))
    {
      var curr := unvisited[i];
      var visited', unvisited' := visited + [curr], unvisited[..i] + unvisited[i + 1..];
      var dist', prev' := Relaxed(curr, dist), RelaxedPrev(curr, dist, prev);
      MoveToVisited(visited, unvisited, i);
      assert forall n :: n in dist' <==> n in nodes;
      assert forall n :: n in prev' <==> n in nodes;
      assert !Improves(curr, source, dist);
      assert dist'[source] == Fin(0) && prev'[source] == None;
      if visited == [] {
        // only the source is at a finite distance before the first iteration
        var j :| 0 <= j < |unvisited| && unvisited[j] == source;
        assert Le(dist[curr], Fin(0));
        assert prev[curr] == None;
        assert curr == source;
      }
      assert visited'[0] == source;
      assert target in unvisited' || visited'[|visited'| - 1] == target;
      assert Valid() && Closed();
      assert source in nodes && target in nodes;
      assert Distinct(visited') && Distinct(unvisited');
      assert Bookkeeping(source, target, visited', unvisited', dist', prev');
    }

    /** Relaxing the edges of curr leaves the distance of curr, and of every
        node not above curr, as it was. */
    lemma SettledUnchanged(visited: seq<Node>, curr: Node, dist: map<Node, Dist>)
      requires curr in nodes && curr in dist
      requires forall u :: u in visited ==> u in dist && Le(dist[u], dist[curr])
      ensures forall u :: u in visited + [curr] ==> Relaxed(curr, dist)[u] == dist[u]
    {
    }

    /** After curr, a least unvisited node, is moved to visited and its edges
        relaxed, no visited distance is above an unvisited one. */
    lemma StepOrder(visited: seq<Node>, unvisited: seq<Node>, dist: map<Node, Dist>, i: nat)
      requires Distinct(unvisited) && i < |unvisited| && unvisited[i] in nodes
      requires forall n :: n in visited || n in unvisited ==> n in dist
      requires forall u, v :: u in visited && v in unvisited ==> Le(dist[u], dist[v])
      requires forall j :: 0 <= j < |unvisited| ==> Le(dist[unvisited[i]], dist[unvisited[j]])
      requires forall u :: u in visited + [unvisited[i]] ==> Relaxed(unvisited[i], dist)[u] == dist[u]
      ensures forall u, v :: u in visited + [unvisited[i]] && v in unvisited[..i] + unvisited[i + 1..] ==>
                Le(Relaxed(unvisited[i], dist)[u], Relaxed(unvisited[i], dist)[v])
    {
    }

    /** After curr is moved to visited and its edges relaxed, every edge out
        of a visited node into a non-wall has been relaxed. */
    lemma StepEdges(visited: seq<Node>, curr: Node, dist: map<Node, Dist>)
      requires curr in nodes && curr in dist
      requires forall u :: u in visited ==> u in nodes && u in dist
      requires forall u, v :: u in visited && v in nodes[u] ==> v in dist
      requires forall u, v :: u in visited && v in nodes[u] && v !in walls ==> Le(dist[v], Add(dist[u], Fin(1)))
      requires forall m :: m in nodes[curr] ==> m in dist
      requires forall u :: u in visited + [curr] ==> Relaxed(curr, dist)[u] == dist[u]
      ensures forall u, v :: u in visited + [curr] && v in nodes[u] && v !in walls ==>
                Le(Relaxed(curr, dist)[v], Add(Relaxed(curr, dist)[u], Fin(1)))
    {
    }

    /** Relaxing the edges of curr, which is not yet visited, keeps every
        predecessor link valid once curr is visited, provided the distances
        of the visited nodes and of curr itself do not change. */
    lemma StepLinks(source: Node, visited: seq<Node>, curr: Node, dist: map<Node, Dist>, prev: map<Node, Option<Node>>)
      requires curr in nodes && curr in dist && curr !in visited
      requires forall n :: n in prev ==> n in dist
      requires forall u :: u in visited ==> u in dist
      requires Links(source, visited, dist, prev)
      requires forall u :: u in visited + [curr] ==> Relaxed(curr, dist)[u] == dist[u]
      ensures Links(source, visited + [curr], Relaxed(curr, dist), RelaxedPrev(curr, dist, prev))
    {
    }

    /** One iteration of the main loop keeps the loop invariant. */
    lemma SearchStep(source: Node, target: Node, visited: seq<Node>, unvisited: seq<Node>,
                     dist: map<Node, Dist>, prev: map<Node, Option<Node>>, i: nat)
      requires SearchInvariant(source, target, visited, unvisited, dist, prev)
      requires target in unvisited && i < |unvisited|
      requires forall j :: 0 <= j < |unvisited| ==> Le(dist[unvisited[i]], dist[unvisited[j]])
      ensures SearchInvariant(source, target, visited + [unvisited[i]], unvisited[..i] + unvisited[i + 1..],
                              Relaxed(unvisited[i], dist), RelaxedPrev(unvisited[i], dist, prev))
    {
      StepBookkeeping(source, target, visited, unvisited, dist, prev, i);
      var curr := unvisited[i];
      assert forall u :: u in visited ==> u in dist && Le(dist[u], dist[curr]);
      SettledUnchanged(visited, curr, dist);
      StepOrder(visited, unvisited, dist, i);
      StepEdges(visited, curr, dist);
      StepLinks(source, visited, unvisited[i], dist, prev);
      var visited', unvisited' := visited + [curr], unvisited[..i] + unvisited[i + 1..];
      var dist', prev' := Relaxed(curr, dist), RelaxedPrev(curr, dist, prev);
      assert Bookkeeping(source, target, visited', unvisited', dist', prev');
      assert Settled(source, target, visited', unvisited', dist', prev');
      assert Links(source, visited', dist', prev');
    }

    /** Settling curr, which no visited node is above, and relaxing its edges
        keeps the visited nodes in order of distance. */
    lemma StepSettleOrder(visited: seq<Node>, curr: Node, dist: map<Node, Dist>)
      requires curr in nodes && curr in dist
      requires forall u :: u in visited ==> u in dist && Le(dist[u], dist[curr])
      requires SettleOrder(visited, dist)
      ensures SettleOrder(visited + [curr], Relaxed(curr, dist))
    {
      SettledUnchanged(visited, curr, dist);
      var visited', dist' := visited + [curr], Relaxed(curr, dist);
      forall i, j | 0 <= i < j < |visited'|
        ensures visited'[i] in dist' && visited'[j] in dist' && Le(dist'[visited'[i]], dist'[visited'[j]])
      {
        assert visited'[i] in visited;
        assert dist'[visited'[i]] == dist[visited'[i]] && dist'[visited'[j]] == dist[visited'[j]];
      }
    }

    /** The initial tables, with every key unvisited in key order, satisfy
        the tie order. */
    lemma InitialTieOrder(dist: map<Node, Dist>)
      requires Valid()
      requires forall n :: n in dist <==> n in nodes
      ensures TieOrder([], keys, dist)
    {
      forall i, j | 0 <= i < j < |keys| ensures KeyBefore(keys[i], keys[j]) {
        assert IndexOf(keys, keys[i]) == i && IndexOf(keys, keys[j]) == j;
      }
    }

    /** Deleting one element of a list in key order leaves it in key order. */
    lemma RemoveKeepsKeyOrder(s: seq<Node>, i: nat)
      requires i < |s|
      requires KeyOrdered(s)
      ensures KeyOrdered(s[..i] + s[i + 1..])
    {
      var s' := s[..i] + s[i + 1..];
      forall a, b | 0 <= a < b < |s'| ensures KeyBefore(s'[a], s'[b]) {
        var a', b' := if a < i then a else a + 1, if b < i then b else b + 1;
        assert s'[a] == s[a'] && s'[b] == s[b'];
      }
    }

    /** Settling curr, the first unvisited node of least distance, and
        relaxing its edges: curr comes before every node it leaves unvisited
        at its own distance, because relaxing only sets distances one above
        its own; an earlier visited node and an unvisited node at equal
        distance keep their order. */
    lemma StepTiesUnvisited(visited: seq<Node>, unvisited: seq<Node>, dist: map<Node, Dist>, i: nat)
      requires Valid() && Distinct(unvisited) && i < |unvisited| && unvisited[i] in nodes
      requires forall n :: n in visited || n in unvisited ==> n in keys && n in dist
      requires KeyOrdered(unvisited)
      requires CrossTies(visited, unvisited, dist)
      requires forall j :: 0 <= j < i ==> Lt(dist[unvisited[i]], dist[unvisited[j]])
      requires forall u :: u in visited + [unvisited[i]] ==> Relaxed(unvisited[i], dist)[u] == dist[u]
      requires forall u :: u in visited ==> Le(dist[u], dist[unvisited[i]])
      ensures CrossTies(visited + [unvisited[i]], unvisited[..i] + unvisited[i + 1..], Relaxed(unvisited[i], dist))
    {
      var curr, unvisited', dist' := unvisited[i], unvisited[..i] + unvisited[i + 1..], Relaxed(unvisited[i], dist);
      forall u, v | u in visited + [curr] && v in unvisited' && u in dist' && v in dist' && dist'[u] == dist'[v]
        ensures KeyBefore(u, v)
      {
        var k :| 0 <= k < |unvisited'| && unvisited'[k] == v;
        var k' := if k < i then k else k + 1;
        assert unvisited[k'] == v && k' != i;
        assert dist[v] == dist[u];
      }
    }

    /** Settling curr keeps equal-distance visited nodes in key order. */
    lemma StepTiesVisited(visited: seq<Node>, unvisited: seq<Node>, dist: map<Node, Dist>, i: nat)
      requires i < |unvisited| && unvisited[i] in nodes && unvisited[i] in dist
      requires forall n :: n in visited ==> n in dist
      requires VisitedTies(visited, dist)
      requires forall u :: u in visited && dist[u] == dist[unvisited[i]] ==> KeyBefore(u, unvisited[i])
      requires forall u :: u in visited + [unvisited[i]] ==> Relaxed(unvisited[i], dist)[u] == dist[u]
      ensures VisitedTies(visited + [unvisited[i]], Relaxed(unvisited[i], dist))
    {
      var visited', dist' := visited + [unvisited[i]], Relaxed(unvisited[i], dist);
      forall a, b | 0 <= a < b < |visited'| && visited'[a] in dist' && visited'[b] in dist' &&
                    dist'[visited'[a]] == dist'[visited'[b]]
        ensures KeyBefore(visited'[a], visited'[b])
      {
        assert visited'[a] in visited;
      }
    }

    /** One iteration of the main loop keeps the tie order. */
    lemma StepTieOrder(visited: seq<Node>, unvisited: seq<Node>, dist: map<Node, Dist>, i: nat)
      requires Valid() && Distinct(unvisited) && i < |unvisited|
      requires TieOrder(visited, unvisited, dist)
      requires forall j :: 0 <= j < i ==> Lt(dist[unvisited[i]], dist[unvisited[j]])
      requires forall u :: u in visited ==> Le(dist[u], dist[unvisited[i]])
      ensures TieOrder(visited + [unvisited[i]], unvisited[..i] + unvisited[i + 1..], Relaxed(unvisited[i], dist))
    {
      var curr := unvisited[i];
      assert curr in nodes;
      SettledUnchanged(visited, curr, dist);
      RemoveKeepsKeyOrder(unvisited, i);
      StepTiesUnvisited(visited, unvisited, dist, i);
      StepTiesVisited(visited, unvisited, dist, i);
    }

    /** Once the target is visited, equal-distance visited nodes are in key
        order, and every node left unvisited is farther than the target, or
        as far and after it in key order. */
    lemma VisitOrder(source: Node, target: Node, visited: seq<Node>, unvisited: seq<Node>,
                               dist: map<Node, Dist>, prev: map<Node, Option<Node>>)
      requires Bookkeeping(source, target, visited, unvisited, dist, prev)
      requires Settled(source, target, visited, unvisited, dist, prev)
      requires TieOrder(visited, unvisited, dist)
      requires target !in unvisited
      ensures forall i, j :: 0 <= i < j < |visited| && dist[visited[i]] == dist[visited[j]] ==>
                KeyBefore(visited[i], visited[j])
      ensures forall n :: n in nodes && n !in visited ==>
                Lt(dist[target], dist[n]) || (dist[target] == dist[n] && KeyBefore(target, n))
    {
    }

    /** The predecessor links of the invariant lead to strictly nearer nodes. */
    lemma LinksDescend(source: Node, target: Node, visited: seq<Node>, unvisited: seq<Node>,
                       dist: map<Node, Dist>, prev: map<Node, Option<Node>>)
      requires SearchInvariant(source, target, visited, unvisited, dist, prev)
      ensures PrevDescends(prev, dist)
    {
    }

    /** Optimality of the settled distances: if a walk from the source reaches
        a visited node t, the distance of t is at most the walk's number of
        steps. The walk is followed from position k while it stays among
        visited nodes; at its first unvisited node the distance is bounded
        by the settled order. */
    lemma {:induction false} WalkBound(source: Node, target: Node, visited: seq<Node>, unvisited: seq<Node>,
                                       dist: map<Node, Dist>, prev: map<Node, Option<Node>>,
                                       w: seq<Node>, t: Node, k: nat)
      requires Bookkeeping(source, target, visited, unvisited, dist, prev)
      requires Settled(source, target, visited, unvisited, dist, prev)
      requires IsWalk(nodes, walls, w, source, t) && t in visited
      requires k < |w| && w[k] in visited && Le(dist[w[k]], Fin(k))
      ensures Le(dist[t], Fin(|w| - 1))
      decreases |w| - k
    {
      if k < |w| - 1 {
        var u, v := w[k], w[k + 1];
        assert v in nodes[u] && v !in walls;
        assert Le(dist[v], Add(dist[u], Fin(1)));
        if v in visited {
          WalkBound(source, target, visited, unvisited, dist, prev, w, t, k + 1);
        } else {
          assert v in unvisited;
          assert Le(dist[t], dist[v]);
        }
      }
    }

    /** Along a predecessor chain of more than one node, the chain starts at
        the source and the k-th node is at distance k. */
    lemma {:induction false} ChainDistance(source: Node, target: Node, visited: seq<Node>, unvisited: seq<Node>,
                                           dist: map<Node, Dist>, prev: map<Node, Option<Node>>,
                                           path: seq<Node>, k: nat)
      requires SearchInvariant(source, target, visited, unvisited, dist, prev)
      requires PrevChain(prev, path, target) && 1 < |path| && k < |path|
      ensures path[0] == source && dist[path[k]] == Fin(k)
      decreases k
    {
      assert Linked(path[1], path[0], visited, dist);
      if k > 0 {
        ChainDistance(source, target, visited, unvisited, dist, prev, path, k - 1);
        assert Linked(path[k], path[k - 1], visited, dist);
      }
    }

    /** Every finite distance is the length of a walk from the source that
        never enters a wall: follow the predecessor links back to the source. */
    lemma {:induction false} DistanceWalk(source: Node, visited: seq<Node>,
                                          dist: map<Node, Dist>, prev: map<Node, Option<Node>>, n: Node)
      requires source in nodes && source in dist && dist[source] == Fin(0)
      requires forall m :: m in dist ==> m in nodes && m in prev
      requires Links(source, visited, dist, prev)
      requires n in dist && dist[n].Fin?
      ensures exists w :: IsWalk(nodes, walls, w, source, n) && |w| == dist[n].steps + 1
      decreases dist[n].steps
    {
      if n == source {
        assert IsWalk(nodes, walls, [source], source, n);
      } else {
        assert prev[n].Some?;
        var p := prev[n].value;
        assert Linked(n, p, visited, dist);
        DistanceWalk(source, visited, dist, prev, p);
        var v :| IsWalk(nodes, walls, v, source, p) && |v| == dist[p].steps + 1;
        assert IsWalk(nodes, walls, v + [n], source, n);
      }
    }

    /** Once the target is visited, every node that a walk from the source
        reaches in fewer steps than the distance of the target is visited
        too. The walk is followed from position k while it stays among
        visited nodes; its next node is at most k + 1 away, below the
        target, so it cannot be unvisited. */
    lemma {:induction false} NearerVisited(source: Node, target: Node, visited: seq<Node>, unvisited: seq<Node>,
                                           dist: map<Node, Dist>, prev: map<Node, Option<Node>>,
                                           w: seq<Node>, n: Node, k: nat)
      requires Bookkeeping(source, target, visited, unvisited, dist, prev)
      requires Settled(source, target, visited, unvisited, dist, prev)
      requires target !in unvisited
      requires IsWalk(nodes, walls, w, source, n) && Lt(Fin(|w| - 1), dist[target])
      requires k < |w| && w[k] in visited && Le(dist[w[k]], Fin(k))
      ensures n in visited
      decreases |w| - k
    {
      if k < |w| - 1 {
        var u, v := w[k], w[k + 1];
        assert v in nodes[u] && v !in walls;
        assert Le(dist[v], Add(dist[u], Fin(1)));
        assert v !in unvisited;
        NearerVisited(source, target, visited, unvisited, dist, prev, w, n, k + 1);
      }
    }

    /** The distance of a visited node is at most the length of any walk to
        it from the source. */
    lemma VisitedBound(source: Node, target: Node, visited: seq<Node>, unvisited: seq<Node>,
                       dist: map<Node, Dist>, prev: map<Node, Option<Node>>)
      requires Bookkeeping(source, target, visited, unvisited, dist, prev)
      requires Settled(source, target, visited, unvisited, dist, prev)
      ensures forall n, w :: n in visited && IsWalk(nodes, walls, w, source, n) ==> Le(dist[n], Fin(|w| - 1))
    {
      forall n, w | n in visited && IsWalk(nodes, walls, w, source, n) ensures Le(dist[n], Fin(|w| - 1)) {
        WalkBound(source, target, visited, unvisited, dist, prev, w, n, 0);
      }
    }

    /** Every finite distance is the length of some walk from the source. */
    lemma FiniteDistances(source: Node, visited: seq<Node>, dist: map<Node, Dist>, prev: map<Node, Option<Node>>)
      requires source in nodes && source in dist && dist[source] == Fin(0)
      requires forall m :: m in dist ==> m in nodes && m in prev
      requires Links(source, visited, dist, prev)
      ensures forall n :: n in dist && dist[n].Fin? ==>
                exists w :: IsWalk(nodes, walls, w, source, n) && |w| == dist[n].steps + 1
    {
      forall n | n in dist && dist[n].Fin?
        ensures exists w :: IsWalk(nodes, walls, w, source, n) && |w| == dist[n].steps + 1
      {
        DistanceWalk(source, visited, dist, prev, n);
      }
    }

    /** Every node that a walk from the source reaches in fewer steps than
        the distance of the visited target is visited. */
    lemma NearerAllVisited(source: Node, target: Node, visited: seq<Node>, unvisited: seq<Node>,
                           dist: map<Node, Dist>, prev: map<Node, Option<Node>>)
      requires Bookkeeping(source, target, visited, unvisited, dist, prev)
      requires Settled(source, target, visited, unvisited, dist, prev)
      requires target !in unvisited
      ensures forall n, w :: IsWalk(nodes, walls, w, source, n) && Lt(Fin(|w| - 1), dist[target]) ==> n in visited
    {
      forall n, w | IsWalk(nodes, walls, w, source, n) && Lt(Fin(|w| - 1), dist[target]) ensures n in visited {
        NearerVisited(source, target, visited, unvisited, dist, prev, w, n, 0);
      }
    }

    /** The distances and the order of the search once the target is
        visited: the distance of a visited node is that of a least walk to
        it; nodes were visited in order of distance; every node nearer than
        the target was visited, and so was every reachable node when the
        target cannot be reached. */
    lemma SearchDistances(source: Node, target: Node, visited: seq<Node>, unvisited: seq<Node>,
                          dist: map<Node, Dist>, prev: map<Node, Option<Node>>, path: seq<Node>)
      requires SearchInvariant(source, target, visited, unvisited, dist, prev)
      requires SettleOrder(visited, dist)
      requires target !in unvisited
      requires PrevChain(prev, path, target)
      ensures forall n :: n in dist <==> n in nodes
      ensures forall i, j :: 0 <= i < j < |visited| ==> Le(dist[visited[i]], dist[visited[j]])
      ensures forall n, w :: n in visited && IsWalk(nodes, walls, w, source, n) ==> Le(dist[n], Fin(|w| - 1))
      ensures forall n :: n in dist && dist[n].Fin? ==>
                exists w :: IsWalk(nodes, walls, w, source, n) && |w| == dist[n].steps + 1
      ensures forall n, w :: IsWalk(nodes, walls, w, source, n) && |w| < |path| ==> n in visited
      ensures !Reachable(nodes, walls, source, target) ==>
                forall n, w :: IsWalk(nodes, walls, w, source, n) ==> n in visited
    {
      VisitedBound(source, target, visited, unvisited, dist, prev);
      FiniteDistances(source, visited, dist, prev);
      NearerAllVisited(source, target, visited, unvisited, dist, prev);
      if |path| > 1 {
        ChainDistance(source, target, visited, unvisited, dist, prev, path, |path| - 1);
      }
    }

    /** What the search returns once the target is visited: the predecessor
        chain of the target is a walk that never enters a wall; if the target
        is reachable it starts at the source and no walk is shorter, and
        otherwise it is the target alone. */
    lemma SearchResult(source: Node, target: Node, visited: seq<Node>, unvisited: seq<Node>,
                       dist: map<Node, Dist>, prev: map<Node, Option<Node>>, path: seq<Node>)
      requires SearchInvariant(source, target, visited, unvisited, dist, prev)
      requires target !in unvisited
      requires PrevChain(prev, path, target)
      ensures Distinct(visited) && |visited| <= |keys|
      ensures forall n :: n in visited ==> n in nodes
      ensures |visited| > 0 && visited[0] == source && visited[|visited| - 1] == target
      ensures |path| > 0 && path[|path| - 1] == target
      ensures IsWalk(nodes, walls, path, path[0], target)
      ensures Reachable(nodes, walls, source, target) ==>
                path[0] == source && forall w :: IsWalk(nodes, walls, w, source, target) ==> |path| <= |w|
      ensures !Reachable(nodes, walls, source, target) ==> path == [target]
    {
      forall k | 1 <= k < |path| ensures path[k] in nodes[path[k - 1]] && path[k] !in walls {
        assert Linked(path[k], path[k - 1], visited, dist);
      }
      assert IsWalk(nodes, walls, path, path[0], target);
      if |path| > 1 {
        ChainDistance(source, target, visited, unvisited, dist, prev, path, |path| - 1);
        assert IsWalk(nodes, walls, path, source, target);
        forall w | IsWalk(nodes, walls, w, source, target) ensures |path| <= |w| {
          WalkBound(source, target, visited, unvisited, dist, prev, w, target, 0);
        }
      } else if Reachable(nodes, walls, source, target) {
        var w :| IsWalk(nodes, walls, w, source, target);
        WalkBound(source, target, visited, unvisited, dist, prev, w, target, 0);
        assert path == [target] && prev[target] == None;
        assert target == source;
      }
    }

    /** trace_back: follow the predecessor links back from the target, then
        reverse the list so that it runs towards the target. The ghost
        distances witness that the links have no cycle. */
    method TraceBack(prev: map<Node, Option<Node>>, target: Node, ghost dist: map<Node, Dist>) returns (path: seq<Node>)
      requires target in prev
      requires PrevDescends(prev, dist)
      ensures PrevChain(prev, path, target)
    {
      var back := [target];
      var t := target;
      while prev[t].Some?
        invariant t in prev && |back| > 0 && back[0] == target && back[|back| - 1] == t
        invariant forall k :: 0 <= k < |back| ==> back[k] in prev
        invariant forall k :: 1 <= k < |back| ==> prev[back[k - 1]] == Some(back[k])
        decreases if t in dist && dist[t].Fin? then dist[t].steps else 0
      {
        back := back + [prev[t].value];
        t := prev[t].value;
      }
      path := Reversed(back);
    }

    /** The initialisation of find_shortest_path: every node unvisited, in
        key order, at distance infinity and without predecessor, except the
        source at distance 0. */
    method InitialTables(source: Node) returns (unvisited: seq<Node>, dist: map<Node, Dist>, prev: map<Node, Option<Node>>)
      requires Valid() && source in nodes
      ensures unvisited == keys
      ensures forall n :: n in dist <==> n in nodes
      ensures forall n :: n in prev <==> n in nodes
      ensures forall n :: n in dist ==> dist[n] == (if n == source then Fin(0) else Inf)
      ensures forall n :: n in prev ==> prev[n] == None
    {
      dist, prev, unvisited := map[], map[], [];
      for k := 0 to |keys|
        invariant unvisited == keys[..k]
        invariant forall n :: n in dist <==> n in unvisited
        invariant forall n :: n in prev <==> n in unvisited
        invariant forall n :: n in dist ==> dist[n] == Inf
        invariant forall n :: n in prev ==> prev[n] == None
      {
        var node := keys[k];
        unvisited := unvisited + [node];
        dist := dist[node := Inf];
        prev := prev[node := None];
      }
      assert unvisited == keys;
      dist := dist[source := Fin(0)];
    }

    /** find_shortest_path: Dijkstra's algorithm from source until target is
        visited. `visited` lists the nodes in the order they were settled,
        each once, starting at the source and ending at the target; `path`
        is the predecessor chain of the target, a walk that never enters a
        wall. If the target can be reached the path starts at the source and
        no walk from source to target is shorter; if it cannot, the path is
        the target alone. The ghost `dist` is the final distance table: a
        visited node's entry is the length of a least walk to it, and nodes
        were visited in order of it. */
    method FindShortestPath(source: Node, target: Node)
      returns (path: seq<Node>, visited: seq<Node>, ghost dist: map<Node, Dist>)
      requires Valid() && Closed()
      requires source in nodes && target in nodes
      ensures Distinct(visited) && |visited| <= |keys|
      ensures forall n :: n in visited ==> n in nodes
      ensures |visited| > 0 && visited[0] == source && visited[|visited| - 1] == target
      ensures |path| > 0 && path[|path| - 1] == target
      ensures IsWalk(nodes, walls, path, path[0], target)
      ensures Reachable(nodes, walls, source, target) ==>
                path[0] == source && forall w :: IsWalk(nodes, walls, w, source, target) ==> |path| <= |w|
      ensures !Reachable(nodes, walls, source, target) ==> path == [target]
      ensures forall n :: n in dist <==> n in nodes
      ensures forall i, j :: 0 <= i < j < |visited| ==> Le(dist[visited[i]], dist[visited[j]])
      ensures forall n, w :: n in visited && IsWalk(nodes, walls, w, source, n) ==> Le(dist[n], Fin(|w| - 1))
      ensures forall n :: n in dist && dist[n].Fin? ==>
                exists w :: IsWalk(nodes, walls, w, source, n) && |w| == dist[n].steps + 1
      ensures forall n, w :: IsWalk(nodes, walls, w, source, n) && |w| < |path| ==> n in visited
      ensures !Reachable(nodes, walls, source, target) ==>
                forall n, w :: IsWalk(nodes, walls, w, source, n) ==> n in visited
      ensures forall i, j :: 0 <= i < j < |visited| && dist[visited[i]] == dist[visited[j]] ==>
                KeyBefore(visited[i], visited[j])
      ensures forall n :: n in nodes && n !in visited ==>
                Lt(dist[target], dist[n]) || (dist[target] == dist[n] && KeyBefore(target, n))
    {
      var unvisited, prev;
      visited, unvisited, dist, prev := Search(source, target);
      LinksDescend(source, target, visited, unvisited, dist, prev);
      path := TraceBack(prev, target, dist);
      SearchResult(source, target, visited, unvisited, dist, prev, path);
      SearchDistances(source, target, visited, unvisited, dist, prev, path);
      VisitOrder(source, target, visited, unvisited, dist, prev);
    }

    /** The search phase of find_shortest_path: initialise the tables, then
        settle nodes until the target is visited. On exit the invariant holds
        and the target is no longer unvisited. */
    method Search(source: Node, target: Node)
      returns (visited: seq<Node>, unvisited: seq<Node>, dist: map<Node, Dist>, prev: map<Node, Option<Node>>)
      requires Valid() && Closed()
      requires source in nodes && target in nodes
      ensures SearchInvariant(source, target, visited, unvisited, dist, prev)
      ensures SettleOrder(visited, dist)
      ensures TieOrder(visited, unvisited, dist)
      ensures target !in unvisited
    {
      unvisited, dist, prev := InitialTables(source);
      visited := [];
      InitialState(source, target, dist, prev);
      InitialTieOrder(dist);
      while target in unvisited
        invariant SearchInvariant(source, target, visited, unvisited, dist, prev)
        invariant SettleOrder(visited, dist)
        invariant TieOrder(visited, unvisited, dist)
        decreases |unvisited|
      {
        var i := SelectMin(unvisited, dist);
        var curr := unvisited[i];
        SearchStep(source, target, visited, unvisited, dist, prev, i);
        assert forall u :: u in visited ==> u in dist && Le(dist[u], dist[curr]);
        StepSettleOrder(visited, curr, dist);
        StepTieOrder(visited, unvisited, dist, i);
        visited := visited + [curr];
        // curr occurs once in unvisited, so list.remove(curr) deletes index i
        unvisited := unvisited[..i] + unvisited[i + 1..];
        dist, prev := Relax(curr, dist, prev);
      }
    }
  }
}

=== FILE: grid.dfy ===
/** The grid as a graph: the neighbours of a cell and the table of all cells.

    `width` and `height` count cells; the program derives them from the
    window size divided by the cell size in pixels. */
module Grid {
  import opened Nodes

  /** The cell lies inside a width-by-height grid. */
  predicate InGrid(width: nat, height: nat, n: Node)
  {
    n.x < width && n.y < height
  }

  /** The Manhattan distance between two cells. */
  function Manhattan(a: Node, b: Node): nat
  {
    (if a.x < b.x then b.x - a.x else a.x - b.x) + (if a.y < b.y then b.y - a.y else a.y - b.y)
  }

  /** The neighbours of a cell, in the order left, right, up, down, keeping
      those inside the grid (Game.get_neighbors). */
  function Neighbors(width: nat, height: nat, n: Node): (r: seq<Node>)
  {
    var left := if n.x > 0 then [Node(n.x - 1, n.y)] else [];
    var right := if n.x < width - 1 then [Node(n.x + 1, n.y)] else [];
    var up := if n.y > 0 then [Node(n.x, n.y - 1)] else [];
    var down := if n.y < height - 1 then [Node(n.x, n.y + 1)] else [];
    left + right + up + down
  }

  /** The four unit steps, in the order the program tries them. */
  function Steps(): seq<(int, int)>
  {
    [(-1, 0), (1, 0), (0, -1), (0, 1)]
  }

  /** The cells reached from n by the given steps that lie inside the grid, in
      the order of the steps. */
  function InGridTargets(width: nat, height: nat, n: Node, steps: seq<(int, int)>): seq<Node>
  {
    if steps == [] then []
    else
      var x, y := n.x + steps[0].0, n.y + steps[0].1;
      (if 0 <= x < width && 0 <= y < height then [Node(x, y)] else [])
      + InGridTargets(width, height, n, steps[1..])
  }

  /** The neighbours of a cell of the grid are exactly the in-grid cells one
      step away, in the order left, right, up, down. */
  lemma NeighborsInStepOrder(width: nat, height: nat, n: Node)
    requires InGrid(width, height, n)
    ensures Neighbors(width, height, n) == InGridTargets(width, height, n, Steps())
  {
    var s := Steps();
    assert s[4..] == [];
    assert s[3..][1..] == s[4..] && s[2..][1..] == s[3..] && s[1..][1..] == s[2..];
    assert InGridTargets(width, height, n, s[3..]) == if n.y < height - 1 then [Node(n.x, n.y + 1)] else [];
    assert InGridTargets(width, height, n, s[2..]) ==
      (if n.y > 0 then [Node(n.x, n.y - 1)] else []) + InGridTargets(width, height, n, s[3..]);
    assert InGridTargets(width, height, n, s[1..]) ==
      (if n.x < width - 1 then [Node(n.x + 1, n.y)] else []) + InGridTargets(width, height, n, s[2..]);
  }

  /** A cell of the grid lists another cell as neighbour exactly when that
      cell is in the grid at Manhattan distance one; no neighbour is listed
      twice. */
  lemma NeighborsAdjacent(width: nat, height: nat, n: Node)
    requires InGrid(width, height, n)
    ensures forall m :: m in Neighbors(width, height, n) <==> InGrid(width, height, m) && Manhattan(n, m) == 1
    ensures forall i, j :: 0 <= i < j < |Neighbors(width, height, n)| ==>
              Neighbors(width, height, n)[i] != Neighbors(width, height, n)[j]
  {
  }

  /** A corner cell has two neighbours, an edge cell three and an inner cell
      four, once the grid is at least two cells wide and high. */
  lemma NeighborCount(width: nat, height: nat, n: Node)
    requires InGrid(width, height, n) && 2 <= width && 2 <= height
    ensures |Neighbors(width, height, n)| ==
            2 + (if 0 < n.x < width - 1 then 1 else 0) + (if 0 < n.y < height - 1 then 1 else 0)
  {
  }

  /** Adjacency in the grid is symmetric. */
  lemma NeighborsSymmetric(width: nat, height: nat, a: Node, b: Node)
    requires InGrid(width, height, a) && InGrid(width, height, b)
    ensures b in Neighbors(width, height, a) <==> a in Neighbors(width, height, b)
  {
  }

  /** Cell a comes before cell b when x is the outer and y the inner index. */
  predicate Before(a: Node, b: Node)
  {
    a.x < b.x || (a.x == b.x && a.y < b.y)
  }

  /** The cells (x, 0), ..., (x, h - 1). */
  function Column(x: nat, h: nat): (r: seq<Node>)
    ensures |r| == h
    ensures forall j :: 0 <= j < h ==> r[j] == Node(x, j)
  {
    if h == 0 then [] else Column(x, h - 1) + [Node(x, h - 1)]
  }

  /** Every cell of a width-by-height grid, x-major: all of column 0, then all
      of column 1, and so on. */
  function Cells(width: nat, height: nat): (r: seq<Node>)
    ensures |r| == width * height
    ensures forall n :: n in r <==> InGrid(width, height, n)
    ensures forall i, j :: 0 <= i < j < |r| ==> Before(r[i], r[j])
  {
    if width == 0 then []
    else
      var left, col := Cells(width - 1, height), Column(width - 1, height);
      assert forall n :: n in col <==> n.x == width - 1 && n.y < height by {
        forall n: Node | n.x == width - 1 && n.y < height ensures n in col { assert col[n.y] == n; }
      }
      assert (width - 1) * height + height == width * height;
      assert forall i :: 0 <= i < |left| ==> left[i].x < width - 1 by {
        forall i | 0 <= i < |left| ensures left[i].x < width - 1 { assert left[i] in left; }
      }
      assert forall i, j :: 0 <= i < |left| <= j < |left| + |col| ==> Before((left + col)[i], (left + col)[j]);
      left + col
  }

  /** Listing every cell once, a cell table has no repeated key. */
  lemma CellsDistinct(width: nat, height: nat)
    ensures forall i, j :: 0 <= i < j < |Cells(width, height)| ==> Cells(width, height)[i] != Cells(width, height)[j]
  {
  }

  /** Game.generate_nodes: the table from each cell of the grid to its
      neighbours, filled column by column. The table is a Python dict, whose
      keys keep insertion order: `keys` is that order, `nodes` the mapping. */
  method GenerateNodes(width: nat, height: nat) returns (keys: seq<Node>, nodes: map<Node, seq<Node>>)
    ensures keys == Cells(width, height)
    ensures forall n :: n in nodes <==> InGrid(width, height, n)
    ensures forall n :: n in nodes ==> nodes[n] == Neighbors(width, height, n)
  {
    keys, nodes := [], map[];
    for x := 0 to width
      invariant keys == Cells(x, height)
      invariant forall n :: n in nodes <==> n in keys
      invariant forall n :: n in nodes ==> nodes[n] == Neighbors(width, height, n)
    {
      for y := 0 to height
        invariant keys == Cells(x, height) + Column(x, y)
        invariant forall n :: n in nodes <==> n in keys
        invariant forall n :: n in nodes ==> nodes[n] == Neighbors(width, height, n)
      {
        var node := Node(x, y);
        keys := keys + [node];
        nodes := nodes[node := Neighbors(width, height, node)];
      }
    }
  }

  /** Every neighbour in the table is itself a key of the table. */
  lemma NeighborsInGrid(width: nat, height: nat, n: Node)
    requires InGrid(width, height, n)
    ensures forall m :: m in Neighbors(width, height, n) ==> InGrid(width, height, m)
  {
  }
}

=== FILE: gridpaths.dfy ===
/** Shortest paths on the grid the program draws: the search of module
    Pathfinding run over the node table of module Grid.

    Without walls a least walk between two cells has exactly as many steps
    as their Manhattan distance. A target that is itself a wall, or whose
    every neighbour is a wall other than the source, cannot be reached, and
    the search then returns the target alone. */
module GridPaths {
  import opened Nodes
  import opened Grid
  import opened Pathfinding

  /** nodes is the table Game.generate_nodes builds for a width-by-height
      grid: every cell of the grid, each with its neighbours. */
  ghost predicate GridTable(width: nat, height: nat, nodes: map<Node, seq<Node>>)
  {
    && (forall n :: n in nodes <==> InGrid(width, height, n))
    && (forall n :: n in nodes ==> nodes[n] == Neighbors(width, height, n))
  }

  /** The Manhattan distance obeys the triangle inequality. */
  lemma ManhattanTriangle(a: Node, b: Node, c: Node)
    ensures Manhattan(a, c) <= Manhattan(a, b) + Manhattan(b, c)
  {
  }

  /** Every walk through the grid takes at least as many steps as the
      Manhattan distance between its ends: each step moves to a cell at
      distance one. */
  lemma {:induction false} WalkLowerBound(width: nat, height: nat, nodes: map<Node, seq<Node>>, walls: seq<Node>,
                                          w: seq<Node>, s: Node, t: Node)
    requires GridTable(width, height, nodes)
    requires IsWalk(nodes, walls, w, s, t)
    ensures Manhattan(s, t) <= |w| - 1
    decreases |w|
  {
    if |w| > 1 {
      var u := w[|w| - 2];
      var w' := w[..|w| - 1];
      assert forall i :: 0 <= i < |w'| ==> w'[i] == w[i];
      assert IsWalk(nodes, walls, w', s, u);
      WalkLowerBound(width, height, nodes, walls, w', s, u);
      assert t in Neighbors(width, height, u);
      NeighborsAdjacent(width, height, u);
      ManhattanTriangle(s, u, t);
    }
  }

  /** The cell one step from s towards t: along x first, then along y. */
  function Toward(s: Node, t: Node): (r: Node)
    requires s != t
    ensures Manhattan(r, t) + 1 == Manhattan(s, t)
    ensures Manhattan(s, r) == 1
  {
    if s.x < t.x then Node(s.x + 1, s.y)
    else if s.x > t.x then Node(s.x - 1, s.y)
    else if s.y < t.y then Node(s.x, s.y + 1)
    else Node(s.x, s.y - 1)
  }

  /** The staircase from s to t: one step at a time, each towards t. */
  function Staircase(s: Node, t: Node): (w: seq<Node>)
    ensures |w| == Manhattan(s, t) + 1
    ensures w[0] == s && w[|w| - 1] == t
    decreases Manhattan(s, t)
  {
    if s == t then [s] else [s] + Staircase(Toward(s, t), t)
  }

  /** A step towards a cell of the grid stays in the grid. */
  lemma TowardInGrid(width: nat, height: nat, s: Node, t: Node)
    requires s != t && InGrid(width, height, s) && InGrid(width, height, t)
    ensures InGrid(width, height, Toward(s, t))
  {
  }

  /** Without walls, the staircase between two cells of the grid is a walk. */
  lemma {:induction false} StaircaseIsWalk(width: nat, height: nat, nodes: map<Node, seq<Node>>, s: Node, t: Node)
    requires GridTable(width, height, nodes)
    requires InGrid(width, height, s) && InGrid(width, height, t)
    ensures IsWalk(nodes, [], Staircase(s, t), s, t)
    decreases Manhattan(s, t)
  {
    if s != t {
      var r := Toward(s, t);
      TowardInGrid(width, height, s, t);
      StaircaseIsWalk(width, height, nodes, r, t);
      var w, rest := Staircase(s, t), Staircase(r, t);
      assert w == [s] + rest;
      NeighborsAdjacent(width, height, s);
      assert r in nodes[s];
      forall i | 1 <= i < |w| ensures w[i] in nodes[w[i - 1]] {
        if i > 1 {
          assert w[i] == rest[i - 1] && w[i - 1] == rest[i - 2];
        }
      }
      forall i | 0 <= i < |w| ensures w[i] in nodes {
        if i > 0 {
          assert w[i] == rest[i - 1];
        }
      }
    }
  }

  /** Without walls every cell of the grid reaches every other. */
  lemma OpenGridReachable(width: nat, height: nat, nodes: map<Node, seq<Node>>, s: Node, t: Node)
    requires GridTable(width, height, nodes)
    requires InGrid(width, height, s) && InGrid(width, height, t)
    ensures Reachable(nodes, [], s, t)
  {
    StaircaseIsWalk(width, height, nodes, s, t);
  }

  /** Without walls, a least walk between two cells of the grid has exactly
      Manhattan distance plus one cells. */
  lemma OpenGridDistance(width: nat, height: nat, nodes: map<Node, seq<Node>>, s: Node, t: Node, path: seq<Node>)
    requires GridTable(width, height, nodes)
    requires InGrid(width, height, s) && InGrid(width, height, t)
    requires IsWalk(nodes, [], path, s, t)
    requires forall w :: IsWalk(nodes, [], w, s, t) ==> |path| <= |w|
    ensures |path| == Manhattan(s, t) + 1
  {
    StaircaseIsWalk(width, height, nodes, s, t);
    WalkLowerBound(width, height, nodes, [], path, s, t);
  }

  /** The last step of a walk between two different cells enters the target,
      which is therefore not a wall, from the source or from a cell that is
      not a wall. */
  lemma LastStep(nodes: map<Node, seq<Node>>, walls: seq<Node>, w: seq<Node>, s: Node, t: Node)
    requires IsWalk(nodes, walls, w, s, t) && s != t
    ensures |w| >= 2
    ensures w[|w| - 2] in nodes && t in nodes[w[|w| - 2]]
    ensures t !in walls
    ensures w[|w| - 2] == s || w[|w| - 2] !in walls
  {
  }

  /** A wall can only be reached from itself. */
  lemma WallTargetUnreachable(nodes: map<Node, seq<Node>>, walls: seq<Node>, s: Node, t: Node)
    requires s != t
    ensures t in walls ==> !Reachable(nodes, walls, s, t)
  {
  }

  /** If the target is reached from elsewhere, one of its grid neighbours is
      the source or not a wall. */
  lemma EscapeRoute(width: nat, height: nat, nodes: map<Node, seq<Node>>, walls: seq<Node>, s: Node, t: Node)
    requires GridTable(width, height, nodes)
    requires InGrid(width, height, t) && s != t
    ensures Reachable(nodes, walls, s, t) ==>
              exists m :: m in Neighbors(width, height, t) && (m == s || m !in walls)
  {
    if Reachable(nodes, walls, s, t) {
      var w :| IsWalk(nodes, walls, w, s, t);
      LastStep(nodes, walls, w, s, t);
      var p := w[|w| - 2];
      NeighborsSymmetric(width, height, p, t);
      assert p in Neighbors(width, height, t) && (p == s || p !in walls);
    }
  }

  /** A target whose every grid neighbour is a wall other than the source
      cannot be reached from a different cell. */
  lemma EnclosedTargetUnreachable(width: nat, height: nat, nodes: map<Node, seq<Node>>, walls: seq<Node>,
                                  s: Node, t: Node)
    requires GridTable(width, height, nodes)
    requires InGrid(width, height, t) && s != t
    requires forall m :: m in Neighbors(width, height, t) ==> m in walls && m != s
    ensures !Reachable(nodes, walls, s, t)
  {
    EscapeRoute(width, height, nodes, walls, s, t);
  }

  /** w is a walk from s to t through the cells of the grid that moves one
      cell at a time and never steps into a wall (it may start on one). This
      speaks of the grid alone, not of a node table. */
  ghost predicate GridWalk(width: nat, height: nat, walls: seq<Node>, w: seq<Node>, s: Node, t: Node)
  {
    && |w| > 0 && w[0] == s && w[|w| - 1] == t
    && (forall i :: 0 <= i < |w| ==> InGrid(width, height, w[i]))
    && (forall i :: 1 <= i < |w| ==> Manhattan(w[i - 1], w[i]) == 1 && w[i] !in walls)
  }

  /** Over the table of the grid, the walks of the graph are exactly the
      grid walks. */
  lemma WalkIsGridWalk(width: nat, height: nat, nodes: map<Node, seq<Node>>, walls: seq<Node>,
                       w: seq<Node>, s: Node, t: Node)
    requires GridTable(width, height, nodes)
    ensures IsWalk(nodes, walls, w, s, t) <==> GridWalk(width, height, walls, w, s, t)
  {
    if IsWalk(nodes, walls, w, s, t) {
      forall i | 1 <= i < |w| ensures Manhattan(w[i - 1], w[i]) == 1 {
        NeighborsAdjacent(width, height, w[i - 1]);
      }
    }
    if GridWalk(width, height, walls, w, s, t) {
      forall i | 1 <= i < |w| ensures w[i] in nodes[w[i - 1]] {
        NeighborsAdjacent(width, height, w[i - 1]);
      }
    }
  }

  /** What the result of find_shortest_path means on the grid: its path is
      a grid walk to the target; if some grid walk leads from the source to
      the target, the path starts at the source and no such walk is shorter,
      and otherwise it is the target alone. Without walls it is as long as
      the Manhattan distance; a wall or walled-in target gives the target
      alone. */
  lemma GridSearchResult(width: nat, height: nat, nodes: map<Node, seq<Node>>, walls: seq<Node>,
                         source: Node, target: Node, path: seq<Node>)
    requires GridTable(width, height, nodes)
    requires InGrid(width, height, source) && InGrid(width, height, target)
    requires |path| > 0 && IsWalk(nodes, walls, path, path[0], target)
    requires Reachable(nodes, walls, source, target) ==>
               path[0] == source && forall w :: IsWalk(nodes, walls, w, source, target) ==> |path| <= |w|
    requires !Reachable(nodes, walls, source, target) ==> path == [target]
    ensures GridWalk(width, height, walls, path, path[0], target)
    ensures forall w :: GridWalk(width, height, walls, w, source, target) ==> path[0] == source && |path| <= |w|
    ensures (forall w :: !GridWalk(width, height, walls, w, source, target)) ==> path == [target]
    ensures walls == [] ==> path[0] == source && |path| == Manhattan(source, target) + 1
    ensures source != target && target in walls ==> path == [target]
    ensures source != target && (forall m :: m in Neighbors(width, height, target) ==> m in walls && m != source) ==>
              path == [target]
  {
    WalkIsGridWalk(width, height, nodes, walls, path, path[0], target);
    forall w | GridWalk(width, height, walls, w, source, target) ensures path[0] == source && |path| <= |w| {
      WalkIsGridWalk(width, height, nodes, walls, w, source, target);
    }
    if Reachable(nodes, walls, source, target) {
      var w :| IsWalk(nodes, walls, w, source, target);
      WalkIsGridWalk(width, height, nodes, walls, w, source, target);
    }
    if walls == [] {
      OpenGridReachable(width, height, nodes, source, target);
      OpenGridDistance(width, height, nodes, source, target, path);
    }
    if source != target {
      WallTargetUnreachable(nodes, walls, source, target);
      if forall m :: m in Neighbors(width, height, target) ==> m in walls && m != source {
        EnclosedTargetUnreachable(width, height, nodes, walls, source, target);
      }
    }
  }

  /** The distances and the visiting order of the search, on the grid: a
      visited cell's distance is at most the length of any grid walk to it,
      every finite distance is the length of a grid walk, every cell nearer
      than the target is visited, and every cell a grid walk reaches is
      visited when no grid walk reaches the target. */
  lemma GridSearchDistances(width: nat, height: nat, nodes: map<Node, seq<Node>>, walls: seq<Node>,
                            source: Node, target: Node, path: seq<Node>, visited: seq<Node>,
                            dist: map<Node, Dist>)
    requires GridTable(width, height, nodes)
    requires forall n :: n in dist <==> n in nodes
    requires forall n, w :: n in visited && IsWalk(nodes, walls, w, source, n) ==> Le(dist[n], Fin(|w| - 1))
    requires forall n :: n in dist && dist[n].Fin? ==>
               exists w :: IsWalk(nodes, walls, w, source, n) && |w| == dist[n].steps + 1
    requires forall n, w :: IsWalk(nodes, walls, w, source, n) && |w| < |path| ==> n in visited
    requires !Reachable(nodes, walls, source, target) ==>
               forall n, w :: IsWalk(nodes, walls, w, source, n) ==> n in visited
    ensures forall n :: n in dist <==> InGrid(width, height, n)
    ensures forall n, w :: n in visited && GridWalk(width, height, walls, w, source, n) ==> Le(dist[n], Fin(|w| - 1))
    ensures forall n :: n in dist && dist[n].Fin? ==>
              exists w :: GridWalk(width, height, walls, w, source, n) && |w| == dist[n].steps + 1
    ensures forall n, w :: GridWalk(width, height, walls, w, source, n) && |w| < |path| ==> n in visited
    ensures (forall w :: !GridWalk(width, height, walls, w, source, target)) ==>
              forall n, w :: GridWalk(width, height, walls, w, source, n) ==> n in visited
  {
    forall n, w | GridWalk(width, height, walls, w, source, n) ensures IsWalk(nodes, walls, w, source, n) {
      WalkIsGridWalk(width, height, nodes, walls, w, source, n);
    }
    forall n | n in dist && dist[n].Fin?
      ensures exists w :: GridWalk(width, height, walls, w, source, n) && |w| == dist[n].steps + 1
    {
      var w :| IsWalk(nodes, walls, w, source, n) && |w| == dist[n].steps + 1;
      WalkIsGridWalk(width, height, nodes, walls, w, source, n);
    }
    if Reachable(nodes, walls, source, target) {
      var w :| IsWalk(nodes, walls, w, source, target);
      WalkIsGridWalk(width, height, nodes, walls, w, source, target);
    }
  }

  /** With the cells of generate_nodes as keys, key order is the x-major
      order `Before`. */
  lemma CellsKeyBefore(width: nat, height: nat, graph: Graph)
    requires graph.keys == Cells(width, height)
    ensures forall a, b :: graph.KeyBefore(a, b) <==>
              InGrid(width, height, a) && InGrid(width, height, b) && Before(a, b)
  {
    forall a, b | InGrid(width, height, a) && InGrid(width, height, b) && Before(a, b)
      ensures graph.KeyBefore(a, b)
    {
      var i, j := IndexOf(graph.keys, a), IndexOf(graph.keys, b);
      assert j < i ==> Before(b, a) && !Before(a, b);
    }
  }

  /** The visiting order of the search, on the grid: equal-distance cells are
      visited in x-major order, and every cell left unvisited is farther than
      the target, or as far and after it in x-major order. */
  lemma GridVisitOrder(width: nat, height: nat, graph: Graph, target: Node, visited: seq<Node>,
                       dist: map<Node, Dist>)
    requires graph.keys == Cells(width, height) && GridTable(width, height, graph.nodes)
    requires forall n :: n in dist <==> n in graph.nodes
    requires forall n :: n in visited ==> n in graph.nodes
    requires target in graph.nodes
    requires forall i, j :: 0 <= i < j < |visited| && dist[visited[i]] == dist[visited[j]] ==>
               graph.KeyBefore(visited[i], visited[j])
    requires forall n :: n in graph.nodes && n !in visited ==>
               Lt(dist[target], dist[n]) || (dist[target] == dist[n] && graph.KeyBefore(target, n))
    ensures forall i, j :: 0 <= i < j < |visited| && dist[visited[i]] == dist[visited[j]] ==>
              Before(visited[i], visited[j])
    ensures forall n :: InGrid(width, height, n) && n !in visited ==>
              Lt(dist[target], dist[n]) || (dist[target] == dist[n] && Before(target, n))
  {
    CellsKeyBefore(width, height, graph);
  }

  /** Game.run without the window and its event loop: build the graph of a
      width-by-height grid, add the walls one at a time as the 'w' key does,
      and run find_shortest_path from source to target. The ghost `dist` is
      the search's final distance table. */
  method RunSearch(width: nat, height: nat, walls: seq<Node>, source: Node, target: Node)
    returns (path: seq<Node>, visited: seq<Node>, ghost dist: map<Node, Dist>)
    requires InGrid(width, height, source) && InGrid(width, height, target)
    ensures Distinct(visited) && |visited| <= width * height
    ensures |visited| > 0 && visited[0] == source && visited[|visited| - 1] == target
    ensures forall n :: n in visited ==> InGrid(width, height, n)
    ensures |path| > 0 && path[|path| - 1] == target
    ensures GridWalk(width, height, walls, path, path[0], target)
    ensures forall w :: GridWalk(width, height, walls, w, source, target) ==> path[0] == source && |path| <= |w|
    ensures (forall w :: !GridWalk(width, height, walls, w, source, target)) ==> path == [target]
    ensures walls == [] ==> path[0] == source && |path| == Manhattan(source, target) + 1
    ensures source != target && target in walls ==> path == [target]
    ensures source != target && (forall m :: m in Neighbors(width, height, target) ==> m in walls && m != source) ==>
              path == [target]
    ensures forall n :: n in dist <==> InGrid(width, height, n)
    ensures forall i, j :: 0 <= i < j < |visited| ==> Le(dist[visited[i]], dist[visited[j]])
    ensures forall n, w :: n in visited && GridWalk(width, height, walls, w, source, n) ==> Le(dist[n], Fin(|w| - 1))
    ensures forall n :: n in dist && dist[n].Fin? ==>
              exists w :: GridWalk(width, height, walls, w, source, n) && |w| == dist[n].steps + 1
    ensures forall n, w :: GridWalk(width, height, walls, w, source, n) && |w| < |path| ==> n in visited
    ensures (forall w :: !GridWalk(width, height, walls, w, source, target)) ==>
              forall n, w :: GridWalk(width, height, walls, w, source, n) ==> n in visited
    ensures forall i, j :: 0 <= i < j < |visited| && dist[visited[i]] == dist[visited[j]] ==>
              Before(visited[i], visited[j])
    ensures forall n :: InGrid(width, height, n) && n !in visited ==>
              Lt(dist[target], dist[n]) || (dist[target] == dist[n] && Before(target, n))
  {
    var graph := BuildGraph(width, height, walls);
    path, visited, dist := graph.FindShortestPath(source, target);
    GridSearchResult(width, height, graph.nodes, walls, source, target, path);
    GridSearchDistances(width, height, graph.nodes, walls, source, target, path, visited, dist);
    GridVisitOrder(width, height, graph, target, visited, dist);
  }

  /** The graph Game.run builds: the node table of generate_nodes, no walls
      at first, then each wall added in turn as the 'w' key does. */
  method BuildGraph(width: nat, height: nat, walls: seq<Node>) returns (graph: Graph)
    ensures fresh(graph)
    ensures graph.Valid() && graph.Closed()
    ensures GridTable(width, height, graph.nodes)
    ensures graph.keys == Cells(width, height) && graph.walls == walls
  {
    var keys, nodes := GenerateNodes(width, height);
    CellsDistinct(width, height);
    graph := new Graph(keys, nodes, []);
    for k := 0 to |walls|
      invariant graph.keys == keys && graph.nodes == nodes && graph.walls == walls[..k]
    {
      graph.AddWall(walls[k]);
    }
    assert walls[..|walls|] == walls;
    forall n, m | n in nodes && m in nodes[n] ensures m in nodes {
      NeighborsInGrid(width, height, n);
    }
  }
}

=== FILE: nodes.dfy ===
/** Grid cells and their identity.

    A node is a grid position. The program compares nodes through a derived
    name, the decimal x coordinate, a comma and the decimal y coordinate; the
    lemmas here show that this name identifies the position, so comparing
    names is the same as comparing positions. */
module Nodes {

  /** A grid position (x, y); the position is all a node carries. */
  datatype Node = Node(x: nat, y: nat)

  /** The character of a decimal digit. */
  function DigitChar(d: nat): (c: char)
    requires d < 10
    ensures '0' <= c <= '9'
    ensures c as int - '0' as int == d
  {
    ('0' as int + d) as char
  }

  /** The decimal numeral of n, without leading zeros. */
  function Decimal(n: nat): (s: string)
    ensures 1 <= |s|
    ensures n < 10 <==> |s| == 1
    ensures forall i :: 0 <= i < |s| ==> '0' <= s[i] <= '9'
    decreases n
  {
    if n < 10 then [DigitChar(n)] else Decimal(n / 10) + [DigitChar(n % 10)]
  }

  /** The name of a node: "x,y". */
  function Name(n: Node): (s: string)
  {
    Decimal(n.x) + "," + Decimal(n.y)
  }

  /** Different numbers have different numerals. */
  lemma {:induction false} DecimalInjective(a: nat, b: nat)
    requires Decimal(a) == Decimal(b)
    ensures a == b
    decreases a
  {
    var sa, sb := Decimal(a), Decimal(b);
    if a < 10 {
      assert sa[0] == DigitChar(a) && sb[0] == DigitChar(b);
    } else {
      assert sa[..|sa| - 1] == Decimal(a / 10);
      assert sb[..|sb| - 1] == Decimal(b / 10);
      assert sa[|sa| - 1] == DigitChar(a % 10) && sb[|sb| - 1] == DigitChar(b % 10);
      DecimalInjective(a / 10, b / 10);
    }
  }

  /** Two strings joined at a separator that the left parts do not contain
      split back into the same parts. */
  lemma SplitAtSeparator(p: string, q: string, p': string, q': string, sep: char)
    requires sep !in p && sep !in p'
    requires p + [sep] + q == p' + [sep] + q'
    ensures p == p' && q == q'
  {
    var s, s' := p + [sep] + q, p' + [sep] + q';
    // the separator first occurs right after the left part, in both
    assert s[|p|] == sep && forall i :: 0 <= i < |p| ==> s[i] == p[i];
    assert s'[|p'|] == sep && forall i :: 0 <= i < |p'| ==> s'[i] == p'[i];
    assert |p| == |p'|;
    assert p == s[..|p|] && p' == s'[..|p'|];
    assert q == s[|p| + 1..] && q' == s'[|p'| + 1..];
  }

  /** The name of a node determines its position. */
  lemma NameInjective(a: Node, b: Node)
    ensures Name(a) == Name(b) <==> a == b
  {
    if Name(a) == Name(b) {
      var da, db := Decimal(a.x), Decimal(b.x);
      assert ',' !in da && ',' !in db;
      SplitAtSeparator(da, Decimal(a.y), db, Decimal(b.y), ',');
      DecimalInjective(a.x, b.x);
      DecimalInjective(a.y, b.y);
    }
  }

  /** Node equality as the program computes it: by comparing names. Python's
      dict and list membership use this comparison, and the hash of a node is
      the hash of its name, so equal nodes also hash alike. */
  function Equal(a: Node, b: Node): (r: bool)
    ensures r <==> a.x == b.x && a.y == b.y
  {
    NameInjective(a, b);
    Name(a) == Name(b)
  }
}
